=== FILE: README.md ===
# docarray validate-and-coerce gates, in Dafny

This project models two boundary validators of docarray's typing layer and
proves properties of them.

* **Tensor coercion gates.** `AnyTensor.validate` and `VideoTensor.validate`
  take an arbitrary value and either return it unchanged, wrap a native torch
  or TensorFlow tensor in the matching docarray wrapper, hand it to the numpy
  wrapper's own validator, or raise `TypeError`. The gates are priority
  ordered and short-circuiting: torch first, then TensorFlow, then numpy. A
  backend only takes part when it is installed. The abstract kinds refuse
  their five backend hooks with `AttributeError`.
* **URL validation pipeline.** `AnyUrl.validate` runs these steps in order:
  1. Relative-path detection.
  2. pydantic's base validation, including docarray's `validate_parts`
     (scheme, port and user checks).
  3. Mime-type detection from the text before the first `?`, with an
     advisory network probe.
  4. A mime-prefix check, or an extension whitelist when no mime type was found.
  5. The choice of returned text.

  The model also covers `build`'s scheme-less post-processing, the branch
  `load_bytes` takes, and the protobuf node mapping.

Modules:

* `Wrappers` holds `Option` and `Result`.
* `Strings` holds Python's `startswith`, `endswith`, `split(sep)[0]` and
  ASCII `lower`.
* `TensorValues` holds the shared tensor datatypes.
* `Dispatch` is a reference definition of a first-match rule table. Each gate
  is proved equal to its own table.
* `AnyTensor`, `VideoTensor` and `AnyUrl` each follow one source file.

Tensor values are described by the set of classes they are instances of.
Python's subclassing is therefore visible: a `TorchTensor` is also a
`torch.Tensor`, and a `VideoNdArray` is also an `np.ndarray`. This is why the
order of the branches matters.

Collaborators outside the core are parameters:

* the backend-availability flags;
* `NdArray.validate` / `VideoNdArray.validate`;
* in the `AnyUrl.Environment` datatype: `os.path.isabs`/`abspath`/`exists`,
  pydantic's grammar, port check, string coercion and rendering,
  `mimetypes.guess_type`, the network probe, `urlparse`'s scheme, file reads
  and downloads;
* the subclass hooks `mime_type()`/`allowed_extensions()`, as fields of
  `UrlClass`. There, `None` stands for the base class, whose hooks raise
  `NotImplementedError`.

Behaviour worth knowing before reading the model:

* A relative input is validated in its absolute form but comes back as the
  original relative text, not its absolute form
  (docarray/typing/url/any_url.py:65-66, 100-101; `AnyUrl.ValidatedText`,
  `AnyUrl.OfflineAuxPngAccepted`).
* pydantic's own `AnyUrl.validate` hands back an instance of the class being
  validated as it is. docarray passes such an instance on unchanged unless it
  is relative (docarray/typing/url/any_url.py:67-71), so re-validating a URL
  skips the grammar and `validate_parts`. The model's `UrlInput.Instance`
  stands for such a value (`AnyUrl.InstanceRevalidation`).
* The video gate passes on the numpy validator's own error
  (docarray/typing/tensor/video/video_tensor.py:126-130); the model keeps it
  as `NumpyError`. The AnyTensor gate replaces it with its own `TypeError`.

## Model

| member | source | states |
|---|---|---|
| Strings.BeforeFirst | docarray/typing/url/any_url.py:74 | `value.split("?")[0]` is a prefix of the value that contains no `?` and stops at the first `?` or at the end |
| Strings.BeforeFirstUnique | docarray/typing/url/any_url.py:88 | those three properties determine the query-stripped prefix uniquely |
| Strings.Lower | docarray/typing/url/any_url.py:119 | `scheme.lower()` keeps the length, maps each character to its lower-case form and leaves no upper-case ASCII letter |
| Dispatch.FirstFiring | docarray/typing/tensor/tensor.py:110-122 | the selected branch fires and no earlier branch fires; when nothing is selected, no branch fires |
| Dispatch.RunShortCircuits | docarray/typing/tensor/tensor.py:110-122 | the first branch that fires alone decides the outcome, whatever later branches would do |
| Dispatch.DisabledRuleIsInert | docarray/typing/tensor/tensor.py:111-120 | a branch guarded by an unavailable backend can be removed from the table without changing any outcome |
| AnyTensor.Validate | docarray/typing/tensor/tensor.py:103-129 | every failure is the gate's own `TypeError` on the input (a numpy-validation error never escapes); a wrapped result wraps the input itself into the AnyTensor family; a pass-through returns the input itself |
| AnyTensor.ValidateFollowsPriority | docarray/typing/tensor/tensor.py:110-129 | for all inputs the gate equals the first-match run of the table torch-wrapper, torch-native, TF-wrapper, TF-native, numpy-with-swallowed-errors |
| AnyTensor.TorchBranches | docarray/typing/tensor/tensor.py:111-115 | with torch installed, a `TorchTensor` comes back unchanged and a native `torch.Tensor` is wrapped by the torch backend, whatever the TF flag or the numpy validator say |
| AnyTensor.TensorFlowBranches | docarray/typing/tensor/tensor.py:116-120 | when no torch branch fired, a `TensorFlowTensor` comes back unchanged and a `tf.Tensor` is wrapped by the TF backend |
| AnyTensor.TorchUnavailableNeverFires | docarray/typing/tensor/tensor.py:111-115 | without torch, the gate equals its table with the two torch branches deleted, whatever the value |
| AnyTensor.TensorFlowUnavailableNeverFires | docarray/typing/tensor/tensor.py:116-120 | without TensorFlow, the gate equals its table with the two TF branches deleted, whatever the value |
| AnyTensor.NumpyFallback | docarray/typing/tensor/tensor.py:121-129 | a value no backend branch caught gets `NdArray.validate`'s result on success and `TypeError` on its failure |
| AnyTensor.CallHook | docarray/typing/tensor/tensor.py:81-97 | every one of the five backend hooks fails with an `AttributeError` naming AnyTensor |
| VideoTensor.Validate | docarray/typing/tensor/video/video_tensor.py:106-134 | a validated result comes only from an `np.ndarray` and is exactly `VideoNdArray.validate`'s result; a numpy error comes only from an `np.ndarray` and is exactly that validator's error; every other failure is `TypeError`; wrapping stays in the video family |
| VideoTensor.ValidateFollowsPriority | docarray/typing/tensor/video/video_tensor.py:113-134 | for all inputs the gate equals the first-match run of the table torch, TF, `VideoNdArray` pass-through, `np.ndarray` with errors passed on, where nothing else fires |
| VideoTensor.TorchBranches | docarray/typing/tensor/video/video_tensor.py:114-118 | with torch installed, any `TorchTensor` comes back unchanged and a native tensor becomes a video torch tensor |
| VideoTensor.TensorFlowBranches | docarray/typing/tensor/video/video_tensor.py:119-123 | the TF branches mirror the torch ones and decide only when no torch branch fired |
| VideoTensor.TorchUnavailableNeverFires | docarray/typing/tensor/video/video_tensor.py:114-118 | without torch, the video gate equals its table with the two torch branches deleted |
| VideoTensor.TensorFlowUnavailableNeverFires | docarray/typing/tensor/video/video_tensor.py:119-123 | without TensorFlow, the video gate equals its table with the two TF branches deleted |
| VideoTensor.NumpyBranches | docarray/typing/tensor/video/video_tensor.py:124-134 | after the backend branches, a `VideoNdArray` comes back unchanged even though it is an `np.ndarray`; another `np.ndarray` yields the validator's result or its error unchanged; anything else is `TypeError` |
| VideoTensor.ValidatorOnlySeesArrays | docarray/typing/tensor/video/video_tensor.py:126-130 | the video validator is consulted only for `np.ndarray` values: validators that agree on the input give the same outcome |
| VideoTensor.GatesDifferOnNumpyFailure | docarray/typing/tensor/video/video_tensor.py:124-134 | on a value the numpy validator refuses, AnyTensor raises `TypeError`, while VideoTensor passes the validator's error on for an `np.ndarray` and raises `TypeError` otherwise |
| VideoTensor.CallHook | docarray/typing/tensor/video/video_tensor.py:84-100 | every one of the five backend hooks fails with an `AttributeError` naming VideoTensor |
| AnyUrl.ValidateParts | docarray/typing/url/any_url.py:105-129 | accepted exactly when the scheme is missing, or every scheme is allowed, or the lower-cased scheme is allowed; and the port check passes when asked for; and a user is present when required; on success the parts are returned unchanged; a bad scheme is reported first, then a bad port, then a missing user |
| AnyUrl.MissingSchemeAccepted | docarray/typing/url/any_url.py:114-117 | a missing scheme never causes a scheme error |
| AnyUrl.SchemeCheckIgnoresCase | docarray/typing/url/any_url.py:119-120 | two schemes that differ only in letter case get the same verdict |
| AnyUrl.BaseValidate | docarray/typing/url/any_url.py:71 | base validation of a text succeeds exactly when the grammar matches and `validate_parts` accepts the parts; a grammar miss is the syntax error and a `validate_parts` refusal is passed on; success yields pydantic's rendering of exactly those parts |
| AnyUrl.BaseTarget | docarray/typing/url/any_url.py:60-69 | a relative text is handed to base validation as `os.path.abspath` of it; any other text, in particular every text starting with "http", is handed on as it is |
| AnyUrl.DetectMimeType | docarray/typing/url/any_url.py:73-82 | a conclusive guess from the query-stripped text is kept; otherwise a successful probe's main type is used, and a failed probe leaves the mime type undetected |
| AnyUrl.HasAllowedExtensionSpec | docarray/typing/url/any_url.py:86-90 | the whitelist test holds exactly when some allowed extension ends the full text or its query-stripped prefix |
| AnyUrl.CheckFormat | docarray/typing/url/any_url.py:84-98 | with a mime type, acceptance is exactly "starts with the class's prefix", and a miss is the wrong-format error; without one, acceptance is exactly the whitelist test, and a miss is the not-a-valid-format error; the extension verdict and the not-a-valid-format error occur only without a mime type; the base class's missing `allowed_extensions` or `mime_type` hook raises exactly when that hook is consulted |
| AnyUrl.Validate | docarray/typing/url/any_url.py:50-103 | an accepted value passed the format check of its own text; an accepted relative value comes back as its own text; an accepted plain text that is not relative comes back as pydantic's rendering of it; a non-`str` value fails with the coercion error, with its base validation's error, or at `value.split`, in that order; when base validation of a text runs and fails, its error is the one raised, before any mime detection, network probe or format check (acceptance in full: `AnyUrl.ValidateAcceptsExactly`) |
| AnyUrl.OnlyTextValidates | docarray/typing/url/any_url.py:60-74 | a non-`str` value is never accepted: pydantic cannot coerce it, its base validation refuses the coerced text, or `value.split` fails on it |
| AnyUrl.ValidatedText | docarray/typing/url/any_url.py:100-103 | an accepted relative input comes back as the original text, not its absolute form; any other accepted input comes back as pydantic's rendering of the text |
| AnyUrl.ValidateAcceptsExactly | docarray/typing/url/any_url.py:50-103 | a text is accepted exactly when base validation of its target passes and the format check of the original text passes |
| AnyUrl.InstanceRevalidation | docarray/typing/url/any_url.py:60-71 | re-validating a URL of the class gives back its own text; a relative one is checked exactly like the plain text; any other is accepted exactly when the format check passes |
| AnyUrl.InstanceIgnoresGrammar | docarray/typing/url/any_url.py:67-71 | for a non-relative instance of the class the URL grammar is never consulted |
| AnyUrl.FormatErrorAfterBase | docarray/typing/url/any_url.py:84-98 | once base validation of its target passed, a text the format check refuses fails with exactly the format check's error |
| AnyUrl.MimeTypeTakesPrecedence | docarray/typing/url/any_url.py:97-98 | a detected mime type outside the class's prefix is always refused, whatever the extension; after base validation the error is the wrong-format one |
| AnyUrl.UndetectedMimeUsesExtensions | docarray/typing/url/any_url.py:75-95 | with an empty guess and a failed probe, a text that passes base validation is accepted exactly when an allowed extension ends it or its query-stripped prefix |
| AnyUrl.BaseClassNeverAccepts | docarray/typing/url/any_url.py:31-37 | the base class, whose media hooks raise `NotImplementedError`, accepts no value at all |
| AnyUrl.GuessIgnoresQuery | docarray/typing/url/any_url.py:74 | texts with the same part before the first `?` and a conclusive guess get the same mime type |
| AnyUrl.Build | docarray/typing/url/any_url.py:131-167 | with a scheme, the base builder's result is returned unchanged; without one, the builder gets `''` and a leading `://` is removed, exactly those three characters |
| AnyUrl.SchemelessBuildIsRest | docarray/typing/url/any_url.py:151-167 | for a builder that writes `<scheme>://` in front of the rest, a scheme-less build is exactly the rest |
| AnyUrl.ToNodeProto | docarray/typing/url/any_url.py:39-48 | the proto node holds the URL's text and its class's type name |
| AnyUrl.FromProtobuf | docarray/typing/url/any_url.py:169-176 | the node text, a plain `str`, is accepted exactly when base validation of its target and the format check of the text both pass; a relative text comes back unchanged, any other as pydantic's rendering of it |
| AnyUrl.RelativePathRoundTrip | tests/units/array/test_array_save_load.py:30-49 | an accepted relative path is stored in the node as given, and reading the node back validates to the same URL |
| AnyUrl.CanonicalUrlRoundTrip | docarray/typing/url/any_url.py:169-176 | a non-relative URL that pydantic renders as itself validates to itself and survives the protobuf round trip |
| AnyUrl.OfflineAuxPngAccepted | docarray/typing/url/any_url.py:84-101 | offline, "aux.png" with whitelist ".jpg"/".png" is accepted on its extension and keeps its relative text |
| AnyUrl.OfflineAuxTxtRefused | docarray/typing/url/any_url.py:87-93 | offline, "aux.txt" fails with "not a valid file format" |
| AnyUrl.LoadBytesSource | docarray/typing/url/any_url.py:184-193 | a download happens exactly for the schemes http, https and data, with the `Mozilla/5.0` user agent and the caller's timeout; a local read happens exactly for another scheme on an existing path; anything else is `FileNotFoundError` on the URL |
| AnyUrl.LoadBytes | docarray/typing/url/any_url.py:178-193 | an existing local path yields exactly its bytes when it can be opened and read, and the read error otherwise (a directory, a file without permission); a missing one yields `FileNotFoundError`; a network URL yields exactly the downloaded body, and the download error when it fails |
| AnyUrl.NetworkLoadIgnoresDisk | docarray/typing/url/any_url.py:184-188 | the bytes of a network URL depend only on its scheme and its download, never on the local file system |
| AnyUrl.LocalLoadIgnoresNetwork | docarray/typing/url/any_url.py:189-193 | the bytes of any other URL depend only on its scheme, its existence and its contents on disk, never on the network or the timeout |

## Left out

- Backend availability probing and the optional imports: they become the boolean parameters `torchAvailable`/`tfAvailable`.
- The shape and dtype logic of `NdArray.validate`/`VideoNdArray.validate`: these are an opaque `NumpyValidator` function, because that code is not part of this model.
- The internals of `_docarray_from_native` and of the wrapper classes: a wrap is the constructor `FromNative(family, backend, value)`.
- The `__getitem__`/`__setitem__`/`__iter__`/`__len__` stubs: they only `pass` and carry no behaviour.
- The `print(e)` in the AnyTensor gate: it is console output only.
- The text of the `TypeError` message: the model keeps only the rejected value.
- The `field`/`config` arguments of the validators: pydantic's config, for example whitespace stripping, belongs to the grammar oracle.
- pydantic's URL grammar, host rules, port check, string coercion and rendering; `mimetypes`' table; `os.path`; `urllib.parse`: these are library behaviour and appear as uninterpreted fields of `Environment`.
- The network requests and file reads: they are I/O and appear as oracles. The model covers only which branch is taken and what it returns.
- The `_register_proto` registry and the protobuf message classes: only the node's text and type name are modelled.
- Strings.Lower: folds only the ASCII letters A-Z, where Python's `str.lower` folds all of Unicode. pydantic matches its URL grammar with `re.IGNORECASE`, so a scheme may also contain a few non-ASCII letters such as U+212A KELVIN SIGN, which Python lowers to `k` and the model leaves as it is. The `validate_parts` verdicts differ only for such a scheme, and only when exactly one of its Python-lowered and ASCII-lowered forms is allowed. From `validate`, only a text starting with "http" keeps its scheme: a relative path is replaced by its absolute form, a POSIX absolute path starts with `/`, and a coerced non-`str` value fails either way.
- AnyUrl.BaseValidate: checks the grammar before `validate_parts`. In pydantic v1 the URL regex always matches, and trailing-text (`UrlExtraError`) and host errors are raised after `validate_parts`. So for a text that fails both, the model reports the syntax error where pydantic reports the `validate_parts` error. The set of accepted texts is the same.

=== FILE: any_tensor.dfy ===
/** `AnyTensor`: the backend-agnostic tensor kind. It is never a stored value,
    only a validation entry point that coerces torch, TensorFlow or numpy-like
    input into the matching docarray wrapper. */
module AnyTensor {

  import opened Wrappers
  import opened TensorValues
  import Dispatch

  /** `AnyTensor.validate`. `ndArray` is `NdArray.validate`; the two flags
      are whether torch and TensorFlow are installed. */
  function Validate(v: Value, torchAvailable: bool, tfAvailable: bool, ndArray: NumpyValidator): (r: Result<Coerced, TensorError>)
    ensures r.Failure? ==> r.error == TypeError(v)
    ensures r.Success? && r.value.FromNative? ==> r.value.family == AnyTensorFamily && r.value.native == v
    ensures r.Success? && r.value.Unchanged? ==> r.value.value == v
  {
    if torchAvailable && TorchTensor in v.isa then Success(Unchanged(v))
    else if torchAvailable && TorchNative in v.isa then Success(FromNative(AnyTensorFamily, Torch, v))
    else if tfAvailable && TensorFlowTensor in v.isa then Success(Unchanged(v))
    else if tfAvailable && TfNative in v.isa then Success(FromNative(AnyTensorFamily, TensorFlow, v))
    else
      match ndArray(v)
      case Success(w) => Success(Validated(w))
      case Failure(_) => Failure(TypeError(v))
  }

  /** The gate's priority table: torch, then TensorFlow, then numpy, which
      takes every value and swallows its own failures. */
  function Priority(torchAvailable: bool, tfAvailable: bool): seq<Dispatch.Rule> {
    [ Dispatch.Rule(torchAvailable, Dispatch.IsInstance(TorchTensor), Dispatch.Keep),
      Dispatch.Rule(torchAvailable, Dispatch.IsInstance(TorchNative), Dispatch.WrapNative(Torch)),
      Dispatch.Rule(tfAvailable, Dispatch.IsInstance(TensorFlowTensor), Dispatch.Keep),
      Dispatch.Rule(tfAvailable, Dispatch.IsInstance(TfNative), Dispatch.WrapNative(TensorFlow)),
      Dispatch.Rule(true, Dispatch.AnyValue, Dispatch.NumpyValidate(true)) ]
  }

  /** The gate is exactly the first-match run of its priority table. */
  lemma ValidateFollowsPriority(v: Value, torchAvailable: bool, tfAvailable: bool, ndArray: NumpyValidator)
    ensures Validate(v, torchAvailable, tfAvailable, ndArray)
         == Dispatch.Run(AnyTensorFamily, Priority(torchAvailable, tfAvailable), v, ndArray)
  {
    var rules := Priority(torchAvailable, tfAvailable);
    var i: nat :=
      if Dispatch.Fires(rules[0], v) then 0
      else if Dispatch.Fires(rules[1], v) then 1
      else if Dispatch.Fires(rules[2], v) then 2
      else if Dispatch.Fires(rules[3], v) then 3
      else 4;
    Dispatch.RunShortCircuits(AnyTensorFamily, rules, v, ndArray, i);
  }

  /** With torch installed, a docarray torch wrapper comes back as is and a
      native torch tensor is wrapped, whatever else the value is. */
  lemma TorchBranches(v: Value, tfAvailable: bool, ndArray: NumpyValidator)
    ensures TorchTensor in v.isa ==> Validate(v, true, tfAvailable, ndArray) == Success(Unchanged(v))
    ensures TorchTensor !in v.isa && TorchNative in v.isa
        ==> Validate(v, true, tfAvailable, ndArray) == Success(FromNative(AnyTensorFamily, Torch, v))
  {
  }

  /** The TensorFlow branches mirror the torch ones, but only decide when
      neither torch branch fired. */
  lemma TensorFlowBranches(v: Value, torchAvailable: bool, ndArray: NumpyValidator)
    requires !(torchAvailable && (TorchTensor in v.isa || TorchNative in v.isa))
    ensures TensorFlowTensor in v.isa ==> Validate(v, torchAvailable, true, ndArray) == Success(Unchanged(v))
    ensures TensorFlowTensor !in v.isa && TfNative in v.isa
        ==> Validate(v, torchAvailable, true, ndArray) == Success(FromNative(AnyTensorFamily, TensorFlow, v))
  {
  }

  /** Without torch installed, the torch branches never decide the result:
      the gate behaves as if those two rules were not in its table. */
  lemma TorchUnavailableNeverFires(v: Value, tfAvailable: bool, ndArray: NumpyValidator)
    ensures Validate(v, false, tfAvailable, ndArray)
         == Dispatch.Run(AnyTensorFamily, Priority(false, tfAvailable)[2..], v, ndArray)
  {
    ValidateFollowsPriority(v, false, tfAvailable, ndArray);
    var rules := Priority(false, tfAvailable);
    Dispatch.DisabledRuleIsInert(AnyTensorFamily, [], rules[0], rules[1..], v, ndArray);
    assert [] + [rules[0]] + rules[1..] == rules;
    Dispatch.DisabledRuleIsInert(AnyTensorFamily, [], rules[1], rules[2..], v, ndArray);
    assert [] + [rules[1]] + rules[2..] == rules[1..];
  }

  /** Without TensorFlow installed, the TensorFlow branches never decide the
      result: the gate behaves as if those two rules were not in its table. */
  lemma TensorFlowUnavailableNeverFires(v: Value, torchAvailable: bool, ndArray: NumpyValidator)
    ensures Validate(v, torchAvailable, false, ndArray)
         == Dispatch.Run(AnyTensorFamily, Priority(torchAvailable, false)[..2] + Priority(torchAvailable, false)[4..], v, ndArray)
  {
    ValidateFollowsPriority(v, torchAvailable, false, ndArray);
    var rules := Priority(torchAvailable, false);
    Dispatch.DisabledRuleIsInert(AnyTensorFamily, rules[..2], rules[2], rules[3..], v, ndArray);
    assert rules[..2] + [rules[2]] + rules[3..] == rules;
    Dispatch.DisabledRuleIsInert(AnyTensorFamily, rules[..2], rules[3], rules[4..], v, ndArray);
    assert rules[..2] + [rules[3]] + rules[4..] == rules[..2] + rules[3..];
  }

  /** Whatever no backend branch catches goes to `NdArray.validate`: its
      result is returned on success, and on failure the gate raises its own
      type error instead of the validator's. */
  lemma NumpyFallback(v: Value, torchAvailable: bool, tfAvailable: bool, ndArray: NumpyValidator)
    requires !(torchAvailable && (TorchTensor in v.isa || TorchNative in v.isa))
    requires !(tfAvailable && (TensorFlowTensor in v.isa || TfNative in v.isa))
    ensures ndArray(v).Success? ==> Validate(v, torchAvailable, tfAvailable, ndArray) == Success(Validated(ndArray(v).value))
    ensures ndArray(v).Failure? ==> Validate(v, torchAvailable, tfAvailable, ndArray) == Failure(TypeError(v))
  {
  }

  /** A backend hook called on `AnyTensor` itself. */
  function CallHook(hook: Hook): (r: Result<Value, TensorError>)
    ensures r.Failure? && r.error.AttributeError?
    ensures r.error.message == RefusalMessage(AnyTensorFamily)
  {
    Failure(AttributeError(RefusalMessage(AnyTensorFamily)))
  }
}

=== FILE: any_url.dfy ===
/** `AnyUrl`: a string-like value naming a local file or a remote resource,
    validated against the media kind a subclass declares (its mime-type prefix
    and its allowed file extensions).

    Everything the validator asks of the operating system, of pydantic and
    of the network is a field of `Environment`; what remains is the order of
    the checks and the string logic between them. */
module AnyUrl {

  import opened Wrappers
  import opened Strings

  /** What a caller hands to the validator: a `str` that is not an instance
      of the class being validated (a URL of another class is one), an
      instance of that very class (a URL it validated before), or some other
      Python object. */
  datatype UrlInput = Text(s: string) | Instance(s: string) | NonText(id: nat)

  /** pydantic's URL parts; absent parts are `None`. */
  datatype Parts = Parts(
    scheme: Option<string>,
    user: Option<string>,
    password: Option<string>,
    host: Option<string>,
    port: Option<string>,
    path: Option<string>,
    query: Option<string>,
    fragment: Option<string>)

  /** The class-level configuration of one URL class. `mimeType` and
      `allowedExtensions` are the subclass hooks; `None` stands for the base
      class, whose hooks raise `NotImplementedError`. An empty
      `allowedSchemes` means every scheme is allowed, as pydantic's `None`. */
  datatype UrlClass = UrlClass(
    protoTypeName: string,
    mimeType: Option<string>,
    allowedExtensions: Option<seq<string>>,
    allowedSchemes: set<string>,
    userRequired: bool)

  /** `AnyUrl` itself: no media hooks, any scheme, no user needed. */
  const BaseAnyUrl := UrlClass("any_url", None, None, {}, false)

  /** A validated URL: a `str` subclass whose text is all there is to it. */
  datatype Url = Url(text: string)

  datatype UrlError =
      /** pydantic could not turn a non-`str` value into a string */
    | NotCoercible
      /** pydantic's URL grammar refused the text */
    | UrlSyntax
      /** `UrlSchemePermittedError(allowed_schemes)` */
    | SchemeNotPermitted(allowed: set<string>)
      /** the port check of pydantic refused the port */
    | PortInvalid
      /** `UrlUserInfoError` */
    | UserInfoMissing
      /** a media hook of the base class raised `NotImplementedError` */
    | HookNotImplemented(hook: string)
      /** "file <value> is not a valid file format for class <cls>" */
    | NotAValidFileFormat(value: string)
      /** "file <value> is not a <mime type> file format" */
    | WrongFileFormat(value: string, expected: string)
      /** `value.split` fails on a value that is not a `str` */
    | NotText
      /** a download in `load_bytes` failed */
    | DownloadFailed(url: string)
      /** opening or reading a local path raised, for example
          `IsADirectoryError` or `PermissionError` */
    | ReadFailed(path: string)
      /** "`<url>` is not a URL or a valid local path" */
    | FileNotFound(path: string)

  /** The collaborators of the validator, as plain functions. */
  datatype Environment = Environment(
    /** `os.path.isabs` */
    isAbs: string -> bool,
    /** `os.path.abspath` */
    absPath: string -> string,
    /** pydantic's string coercion of a value that is not a `str` */
    coerce: nat -> Option<string>,
    /** pydantic's URL grammar: the parts of the text, or nothing */
    parse: string -> Option<Parts>,
    /** pydantic's `_validate_port` */
    portValid: Option<string> -> bool,
    /** `str(url)` of pydantic's validated URL for this text and parts */
    render: (string, Parts) -> string,
    /** the mime type from `mimetypes.guess_type` */
    guessType: string -> Option<string>,
    /** the content main type from opening the URL; `None` when opening raised */
    probe: string -> Option<string>,
    /** `urllib.parse.urlparse(url).scheme` */
    urlScheme: string -> string,
    /** `os.path.exists` */
    pathExists: string -> bool,
    /** the bytes of a local path, or nothing when opening or reading it raised */
    readFile: string -> Option<seq<bv8>>,
    /** the body of a download, or nothing when it raised */
    download: Request -> Option<seq<bv8>>)

  // ---------------------------------------------------------------------
  // validate_parts
  // ---------------------------------------------------------------------

  /** A scheme is fine when it is absent, when the class allows every
      scheme, or when its lower-case form is allowed. */
  predicate SchemePermitted(allowed: set<string>, scheme: Option<string>) {
    scheme.None? || |allowed| == 0 || Lower(scheme.value) in allowed
  }

  /** `AnyUrl.validate_parts`: scheme, then port, then user. */
  function ValidateParts(cls: UrlClass, portValid: Option<string> -> bool, parts: Parts, validatePort: bool): (r: Result<Parts, UrlError>)
    ensures r.Success? <==>
      && SchemePermitted(cls.allowedSchemes, parts.scheme)
      && (validatePort ==> portValid(parts.port))
      && !(cls.userRequired && parts.user.None?)
    ensures r.Success? ==> r.value == parts
    ensures !SchemePermitted(cls.allowedSchemes, parts.scheme) ==> r == Failure(SchemeNotPermitted(cls.allowedSchemes))
    ensures r.Failure? && r.error.UserInfoMissing? ==> cls.userRequired && parts.user.None?
    ensures SchemePermitted(cls.allowedSchemes, parts.scheme) && validatePort && !portValid(parts.port) ==>
      r == Failure(PortInvalid)
    ensures (SchemePermitted(cls.allowedSchemes, parts.scheme) && (validatePort ==> portValid(parts.port))
             && cls.userRequired && parts.user.None?) ==>
      r == Failure(UserInfoMissing)
  {
    var scheme := parts.scheme;
    if scheme.Some? && |cls.allowedSchemes| > 0 && Lower(scheme.value) !in cls.allowedSchemes then
      Failure(SchemeNotPermitted(cls.allowedSchemes))
    else if validatePort && !portValid(parts.port) then
      Failure(PortInvalid)
    else if cls.userRequired && parts.user.None? then
      Failure(UserInfoMissing)
    else
      Success(parts)
  }

  /** A missing scheme never makes `validate_parts` fail. */
  lemma MissingSchemeAccepted(cls: UrlClass, portValid: Option<string> -> bool, parts: Parts, validatePort: bool)
    requires parts.scheme.None?
    ensures ValidateParts(cls, portValid, parts, validatePort).Failure? ==>
      !ValidateParts(cls, portValid, parts, validatePort).error.SchemeNotPermitted?
  {
  }

  /** Scheme checking ignores the case of ASCII letters: schemes that differ
      only in case get the same verdict. */
  lemma SchemeCheckIgnoresCase(cls: UrlClass, portValid: Option<string> -> bool, parts: Parts, validatePort: bool, other: string)
    requires parts.scheme.Some?
    requires |other| == |parts.scheme.value|
    requires forall i :: 0 <= i < |other| ==> LowerChar(other[i]) == LowerChar(parts.scheme.value[i])
    ensures ValidateParts(cls, portValid, parts, validatePort)
         == (match ValidateParts(cls, portValid, parts.(scheme := Some(other)), validatePort)
             case Success(_) => Success(parts)
             case Failure(e) => Failure(e))
  {
    LowerIgnoresCase(other, parts.scheme.value);
  }

  /** pydantic's base validation of a text: grammar, `validate_parts`, then
      `str(url)` of the result. */
  function BaseValidate(cls: UrlClass, env: Environment, text: string): (r: Result<string, UrlError>)
    ensures env.parse(text).None? ==> r == Failure(UrlSyntax)
    ensures r.Success? <==>
      && env.parse(text).Some?
      && ValidateParts(cls, env.portValid, env.parse(text).value, true).Success?
    ensures r.Success? ==> r.value == env.render(text, env.parse(text).value)
    ensures env.parse(text).Some? && r.Failure? ==>
      r == Failure(ValidateParts(cls, env.portValid, env.parse(text).value, true).error)
  {
    match env.parse(text)
    case None => Failure(UrlSyntax)
    case Some(parts) =>
      var checked :- ValidateParts(cls, env.portValid, parts, true);
      Success(env.render(text, checked))
  }

  // ---------------------------------------------------------------------
  // validate
  // ---------------------------------------------------------------------

  /** Relative-path detection: a string that neither starts with "http" nor
      is an absolute path. */
  predicate IsRelative(env: Environment, s: string) {
    !StartsWith(s, "http") && !env.isAbs(s)
  }

  /** What the base validator is given for a text input: the absolute form
      of a relative path, otherwise the text itself. */
  function BaseTarget(env: Environment, s: string): (t: string)
    ensures IsRelative(env, s) ==> t == env.absPath(s)
    ensures StartsWith(s, "http") ==> t == s
    ensures !IsRelative(env, s) ==> t == s
  {
    if IsRelative(env, s) then env.absPath(s) else s
  }

  /** Python's truthiness of an optional string: present and non-empty. */
  predicate Truthy(m: Option<string>) {
    m.Some? && |m.value| > 0
  }

  /** Mime detection: guess from the text before the first "?", and only if
      that guess is empty, ask the network for the content main type. A
      failed request leaves the guess as it was. */
  function DetectMimeType(env: Environment, s: string): (m: Option<string>)
    ensures Truthy(env.guessType(BeforeFirst(s, '?'))) ==> m == env.guessType(BeforeFirst(s, '?'))
    ensures !Truthy(env.guessType(BeforeFirst(s, '?'))) && env.probe(s).None? ==> !Truthy(m)
    ensures !Truthy(env.guessType(BeforeFirst(s, '?'))) && env.probe(s).Some? ==> m == env.probe(s)
  {
    var guessed := env.guessType(BeforeFirst(s, '?'));
    if Truthy(guessed) then guessed
    else match env.probe(s)
      case None => guessed
      case Some(main) => Some(main)
  }

  /** The extension whitelist, one extension at a time: does this extension
      end the text or the text before its first "?", or does a later one? */
  function HasAllowedExtension(exts: seq<string>, s: string): bool {
    if |exts| == 0 then false
    else EndsWith(s, exts[0]) || EndsWith(BeforeFirst(s, '?'), exts[0]) || HasAllowedExtension(exts[1..], s)
  }

  /** The extension whitelist accepts exactly when some allowed extension
      ends the text or the text's query-stripped prefix. */
  lemma {:induction false} HasAllowedExtensionSpec(exts: seq<string>, s: string)
    ensures HasAllowedExtension(exts, s) <==>
      exists i :: 0 <= i < |exts| && (EndsWith(s, exts[i]) || EndsWith(BeforeFirst(s, '?'), exts[i]))
  {
    if |exts| > 0 {
      HasAllowedExtensionSpec(exts[1..], s);
      if HasAllowedExtension(exts[1..], s) {
        var i :| 0 <= i < |exts[1..]| && (EndsWith(s, exts[1..][i]) || EndsWith(BeforeFirst(s, '?'), exts[1..][i]));
        assert exts[i + 1] == exts[1..][i];
      }
      if exists i :: 0 <= i < |exts| && (EndsWith(s, exts[i]) || EndsWith(BeforeFirst(s, '?'), exts[i])) {
        var i :| 0 <= i < |exts| && (EndsWith(s, exts[i]) || EndsWith(BeforeFirst(s, '?'), exts[i]));
        if i > 0 {
          assert exts[1..][i - 1] == exts[i];
        }
      }
    }
  }

  /** How a format check passed. */
  datatype FormatVerdict =
    | MimeTypeMatched
      /** no mime type was found and an allowed extension ended the text:
          the mime-type check is skipped */
    | ExtensionAllowed

  /** The format check: a detected mime type must start with the class's
      prefix and extensions are then never consulted; with no mime type
      the extension whitelist decides. */
  function CheckFormat(cls: UrlClass, s: string, mime: Option<string>): (r: Result<FormatVerdict, UrlError>)
    ensures Truthy(mime) && cls.mimeType.Some? ==>
      (r.Success? <==> StartsWith(mime.value, cls.mimeType.value))
    ensures !Truthy(mime) && cls.allowedExtensions.Some? ==>
      (r.Success? <==> HasAllowedExtension(cls.allowedExtensions.value, s))
    ensures r.Success? && r.value.ExtensionAllowed? ==> !Truthy(mime)
    ensures r.Failure? && r.error.WrongFileFormat? ==> Truthy(mime)
    ensures r.Failure? && r.error.NotAValidFileFormat? ==> !Truthy(mime)
    ensures !Truthy(mime) && cls.allowedExtensions.None? ==> r == Failure(HookNotImplemented("allowed_extensions"))
    ensures Truthy(mime) && cls.mimeType.None? ==> r == Failure(HookNotImplemented("mime_type"))
    ensures (!Truthy(mime) && cls.allowedExtensions.Some? && !HasAllowedExtension(cls.allowedExtensions.value, s)) ==>
      r == Failure(NotAValidFileFormat(s))
    ensures (Truthy(mime) && cls.mimeType.Some? && !StartsWith(mime.value, cls.mimeType.value)) ==>
      r == Failure(WrongFileFormat(s, cls.mimeType.value))
  {
    if !Truthy(mime) then
      match cls.allowedExtensions
      case None => Failure(HookNotImplemented("allowed_extensions"))
      case Some(exts) =>
        if HasAllowedExtension(exts, s) then Success(ExtensionAllowed)
        else Failure(NotAValidFileFormat(s))
    else
      match cls.mimeType
      case None => Failure(HookNotImplemented("mime_type"))
      case Some(prefix) =>
        if StartsWith(mime.value, prefix) then Success(MimeTypeMatched)
        else Failure(WrongFileFormat(s, prefix))
  }

  /** `AnyUrl.validate`. pydantic hands an instance of the class back as it
      is, so only a relative instance, replaced by its absolute form, goes
      through base validation again. */
  function Validate(cls: UrlClass, env: Environment, value: UrlInput): (r: Result<Url, UrlError>)
    ensures r.Success? && !value.NonText? ==> CheckFormat(cls, value.s, DetectMimeType(env, value.s)).Success?
    ensures r.Success? && !value.NonText? && IsRelative(env, value.s) ==> r.value == Url(value.s)
    ensures r.Success? && value.Text? && !IsRelative(env, value.s) ==>
      && env.parse(value.s).Some?
      && r.value == Url(env.render(value.s, env.parse(value.s).value))
    ensures value.NonText? && env.coerce(value.id).None? ==> r == Failure(NotCoercible)
    ensures (value.NonText? && env.coerce(value.id).Some?
             && BaseValidate(cls, env, env.coerce(value.id).value).Failure?) ==>
      r == Failure(BaseValidate(cls, env, env.coerce(value.id).value).error)
    ensures (value.NonText? && env.coerce(value.id).Some?
             && BaseValidate(cls, env, env.coerce(value.id).value).Success?) ==>
      r == Failure(NotText)
    ensures (!value.NonText? && !(value.Instance? && !IsRelative(env, value.s))
             && BaseValidate(cls, env, BaseTarget(env, value.s)).Failure?) ==>
      r == Failure(BaseValidate(cls, env, BaseTarget(env, value.s)).error)
  {
    match value
    case NonText(x) =>
      (match env.coerce(x)
       case None => Failure(NotCoercible)
       case Some(text) =>
         var _ :- BaseValidate(cls, env, text);
         Failure(NotText))
    case _ =>
      var s := value.s;
      var canonical :-
        if value.Instance? && !IsRelative(env, s) then Success(s)
        else BaseValidate(cls, env, BaseTarget(env, s));
      var _ :- CheckFormat(cls, s, DetectMimeType(env, s));
      if IsRelative(env, s) then Success(Url(s)) else Success(Url(canonical))
  }

  /** Only text can be a URL: anything else is refused, at the latest when
      the validator tries to split it. */
  lemma OnlyTextValidates(cls: UrlClass, env: Environment, x: nat)
    ensures Validate(cls, env, NonText(x)).Failure?
  {
  }

  /** The text of an accepted URL: a relative input comes back exactly as
      given, never in its absolute form; any other input comes back as
      pydantic's rendering of that very text. */
  lemma ValidatedText(cls: UrlClass, env: Environment, s: string)
    requires Validate(cls, env, Text(s)).Success?
    ensures IsRelative(env, s) ==> Validate(cls, env, Text(s)).value.text == s
    ensures !IsRelative(env, s) ==>
      && env.parse(s).Some?
      && Validate(cls, env, Text(s)).value.text == env.render(s, env.parse(s).value)
  {
  }

  /** Acceptance, stated in one piece: the base validation of the right
      target passes and the format check of the original text passes. */
  lemma ValidateAcceptsExactly(cls: UrlClass, env: Environment, s: string)
    ensures Validate(cls, env, Text(s)).Success? <==>
      && BaseValidate(cls, env, BaseTarget(env, s)).Success?
      && CheckFormat(cls, s, DetectMimeType(env, s)).Success?
  {
  }

  /** Validating a URL of the class again gives back its own text: a
      relative one is checked exactly as the plain text would be, and any
      other skips the grammar and `validate_parts` and is decided by the
      format check alone. */
  lemma InstanceRevalidation(cls: UrlClass, env: Environment, s: string)
    ensures IsRelative(env, s) ==> Validate(cls, env, Instance(s)) == Validate(cls, env, Text(s))
    ensures !IsRelative(env, s) ==>
      (Validate(cls, env, Instance(s)).Success? <==> CheckFormat(cls, s, DetectMimeType(env, s)).Success?)
    ensures Validate(cls, env, Instance(s)).Success? ==> Validate(cls, env, Instance(s)).value == Url(s)
  {
  }

  /** The grammar is never consulted for a non-relative instance of the
      class: any two grammars give the same outcome. */
  lemma InstanceIgnoresGrammar(cls: UrlClass, env: Environment, parse: string -> Option<Parts>, s: string)
    requires !IsRelative(env, s)
    ensures Validate(cls, env.(parse := parse), Instance(s)) == Validate(cls, env, Instance(s))
  {
  }

  /** Once base validation of its target passed, a text that fails the
      format check is refused with the format check's own error. */
  lemma FormatErrorAfterBase(cls: UrlClass, env: Environment, s: string)
    requires BaseValidate(cls, env, BaseTarget(env, s)).Success?
    ensures CheckFormat(cls, s, DetectMimeType(env, s)).Failure? ==>
      Validate(cls, env, Text(s)) == Failure(CheckFormat(cls, s, DetectMimeType(env, s)).error)
  {
  }

  /** A detected mime type outside the class's prefix is refused, however
      well the extension would have matched the whitelist. */
  lemma MimeTypeTakesPrecedence(cls: UrlClass, env: Environment, s: string)
    requires Truthy(DetectMimeType(env, s))
    requires cls.mimeType.Some? && !StartsWith(DetectMimeType(env, s).value, cls.mimeType.value)
    ensures Validate(cls, env, Text(s)).Failure?
    ensures BaseValidate(cls, env, BaseTarget(env, s)).Success? ==>
      Validate(cls, env, Text(s)) == Failure(WrongFileFormat(s, cls.mimeType.value))
  {
  }

  /** With no mime type found (the guess empty and the network probe failed),
      a text that passes base validation is accepted exactly when an allowed
      extension ends it or its query-stripped prefix. */
  lemma UndetectedMimeUsesExtensions(cls: UrlClass, env: Environment, s: string)
    requires !Truthy(env.guessType(BeforeFirst(s, '?'))) && env.probe(s).None?
    requires cls.allowedExtensions.Some?
    requires BaseValidate(cls, env, BaseTarget(env, s)).Success?
    ensures Validate(cls, env, Text(s)).Success? <==>
      exists i :: 0 <= i < |cls.allowedExtensions.value| &&
        (EndsWith(s, cls.allowedExtensions.value[i]) || EndsWith(BeforeFirst(s, '?'), cls.allowedExtensions.value[i]))
  {
    HasAllowedExtensionSpec(cls.allowedExtensions.value, s);
  }

  /** The base class, with neither media hook, never accepts anything. */
  lemma BaseClassNeverAccepts(env: Environment, value: UrlInput)
    ensures Validate(BaseAnyUrl, env, value).Failure?
  {
  }

  /** Mime guessing looks only at the text before the first "?": two texts
      with the same such prefix whose guess is conclusive are typed alike. */
  lemma GuessIgnoresQuery(env: Environment, s: string, t: string)
    requires BeforeFirst(s, '?') == BeforeFirst(t, '?')
    requires Truthy(env.guessType(BeforeFirst(s, '?')))
    ensures DetectMimeType(env, s) == DetectMimeType(env, t)
  {
  }

  // ---------------------------------------------------------------------
  // build
  // ---------------------------------------------------------------------

  /** The keyword arguments of `build`; `scheme` may be missing. */
  datatype BuildArgs = BuildArgs(
    scheme: Option<string>,
    user: Option<string>,
    password: Option<string>,
    host: string,
    port: Option<string>,
    path: Option<string>,
    query: Option<string>,
    fragment: Option<string>)

  /** `AnyUrl.build` over pydantic's builder `baseBuild`, which takes the
      scheme text and the other arguments. */
  function Build(baseBuild: (string, BuildArgs) -> string, args: BuildArgs): (url: string)
    ensures args.scheme.Some? ==> url == baseBuild(args.scheme.value, args)
    ensures args.scheme.None? && StartsWith(baseBuild("", args), "://") ==>
      "://" + url == baseBuild("", args)
    ensures args.scheme.None? && !StartsWith(baseBuild("", args), "://") ==>
      url == baseBuild("", args)
  {
    var base := baseBuild(if args.scheme.Some? then args.scheme.value else "", args);
    if args.scheme.None? && StartsWith(base, "://") then base[3..] else base
  }

  /** For a builder that always writes `<scheme>://` in front of the rest,
      a build without scheme is exactly that rest. */
  lemma SchemelessBuildIsRest(baseBuild: (string, BuildArgs) -> string, rest: BuildArgs -> string, args: BuildArgs)
    requires forall scheme, a :: baseBuild(scheme, a) == scheme + "://" + rest(a)
    requires args.scheme.None?
    ensures Build(baseBuild, args) == rest(args)
  {
  }

  // ---------------------------------------------------------------------
  // protobuf
  // ---------------------------------------------------------------------

  /** The protobuf node of a URL: its text and its class's type name. */
  datatype NodeProto = NodeProto(text: string, typeName: string)

  function ToNodeProto(cls: UrlClass, u: Url): (n: NodeProto)
    ensures n.text == u.text && n.typeName == cls.protoTypeName
  {
    NodeProto(u.text, cls.protoTypeName)
  }

  /** `from_protobuf`: the stored text, a plain `str`, is validated again. */
  function FromProtobuf(cls: UrlClass, env: Environment, text: string): (r: Result<Url, UrlError>)
    ensures r.Success? <==>
      && BaseValidate(cls, env, BaseTarget(env, text)).Success?
      && CheckFormat(cls, text, DetectMimeType(env, text)).Success?
    ensures r.Success? && IsRelative(env, text) ==> r.value == Url(text)
    ensures r.Success? && !IsRelative(env, text) ==>
      && env.parse(text).Some?
      && r.value == Url(env.render(text, env.parse(text).value))
  {
    Validate(cls, env, Text(text))
  }

  /** A relative path survives a protobuf round trip unchanged: its node
      holds the path as given, and reading the node back validates that same
      text to the same URL. */
  lemma RelativePathRoundTrip(cls: UrlClass, env: Environment, p: string)
    requires Validate(cls, env, Text(p)).Success?
    requires IsRelative(env, p)
    ensures ToNodeProto(cls, Validate(cls, env, Text(p)).value).text == p
    ensures FromProtobuf(cls, env, ToNodeProto(cls, Validate(cls, env, Text(p)).value).text) == Validate(cls, env, Text(p))
  {
  }

  /** A URL whose canonical text pydantic renders back as itself survives
      a protobuf round trip unchanged as well. */
  lemma CanonicalUrlRoundTrip(cls: UrlClass, env: Environment, s: string)
    requires Validate(cls, env, Text(s)).Success?
    requires !IsRelative(env, s)
    requires env.parse(s).Some? ==> env.render(s, env.parse(s).value) == s
    ensures Validate(cls, env, Text(s)) == Success(Url(s))
    ensures FromProtobuf(cls, env, ToNodeProto(cls, Url(s)).text) == Success(Url(s))
  {
  }

  // ---------------------------------------------------------------------
  // a worked example
  // ---------------------------------------------------------------------

  /** An image class accepting the ".jpg" and ".png" extensions. */
  const ImageUrl := UrlClass("image_url", Some("image"), Some([".jpg", ".png"]), {}, false)

  /** An offline environment: absolute paths start with "/", the working
      directory is "/work", the grammar takes absolute paths only, nothing
      has a guessable mime type and the network is unreachable. */
  function OfflineEnvironment(): Environment {
    Environment(
      isAbs := (s: string) => StartsWith(s, "/"),
      absPath := (s: string) => "/work/" + s,
      coerce := (x: nat) => None,
      parse := (s: string) =>
        if StartsWith(s, "/") then Some(Parts(None, None, None, None, None, Some(s), None, None)) else None,
      portValid := (p: Option<string>) => true,
      render := (s: string, p: Parts) => s,
      guessType := (s: string) => None,
      probe := (s: string) => None,
      urlScheme := (s: string) => "",
      pathExists := (s: string) => false,
      readFile := (s: string) => None,
      download := (r: Request) => None)
  }

  /** "aux.png" is accepted by its extension alone and keeps its relative
      form rather than its absolute one. */
  lemma OfflineAuxPngAccepted()
    ensures Validate(ImageUrl, OfflineEnvironment(), Text("aux.png")) == Success(Url("aux.png"))
  {
    var env := OfflineEnvironment();
    var s := "aux.png";
    assert s[0] == 'a' && "http"[0] == 'h';
    assert !StartsWith(s, "http");
    assert IsRelative(env, s);
    assert BaseTarget(env, s) == "/work/aux.png";
    assert StartsWith("/work/aux.png", "/");
    assert BaseValidate(ImageUrl, env, "/work/aux.png") == Success("/work/aux.png");
    BeforeFirstWithoutSeparator(s, '?');
    assert DetectMimeType(env, s) == None;
    assert EndsWith(s, ".png");
    assert HasAllowedExtension([".png"], s);
    assert CheckFormat(ImageUrl, s, None) == Success(ExtensionAllowed);
    ValidateAcceptsExactly(ImageUrl, env, s);
  }

  /** "aux.txt" passes the URL grammar but is refused as a file format
      the class does not know. */
  lemma OfflineAuxTxtRefused()
    ensures Validate(ImageUrl, OfflineEnvironment(), Text("aux.txt")) == Failure(NotAValidFileFormat("aux.txt"))
  {
    var env := OfflineEnvironment();
    var s := "aux.txt";
    assert s[0] == 'a' && "http"[0] == 'h';
    assert !StartsWith(s, "http");
    assert IsRelative(env, s);
    assert BaseTarget(env, s) == "/work/aux.txt";
    assert StartsWith("/work/aux.txt", "/");
    assert BaseValidate(ImageUrl, env, "/work/aux.txt") == Success("/work/aux.txt");
    BeforeFirstWithoutSeparator(s, '?');
    assert DetectMimeType(env, s) == None;
    assert !EndsWith(s, ".png") && !EndsWith(s, ".jpg");
    assert !HasAllowedExtension([".png"], s);
    assert [".jpg", ".png"][1..] == [".png"];
    assert !HasAllowedExtension([".jpg", ".png"], s);
    assert CheckFormat(ImageUrl, s, None) == Failure(NotAValidFileFormat(s));
    FormatErrorAfterBase(ImageUrl, env, s);
  }

  // ---------------------------------------------------------------------
  // load_bytes
  // ---------------------------------------------------------------------

  const NetworkSchemes: set<string> := {"http", "https", "data"}

  const UserAgent: string := "Mozilla/5.0"

  /** A download request: URL, headers and the optional timeout. */
  datatype Request = Request(url: string, headers: map<string, string>, timeout: Option<real>)

  /** Where `load_bytes` takes its bytes from. */
  datatype ByteSource = Download(request: Request) | LocalFile(path: string)

  /** The branch `load_bytes` takes: a download for a network scheme, a local
      read for an existing path, otherwise `FileNotFoundError`. */
  function LoadBytesSource(env: Environment, u: Url, timeout: Option<real>): (r: Result<ByteSource, UrlError>)
    ensures r.Success? && r.value.Download? <==> env.urlScheme(u.text) in NetworkSchemes
    ensures r.Success? && r.value.LocalFile? <==> env.urlScheme(u.text) !in NetworkSchemes && env.pathExists(u.text)
    ensures r.Failure? ==> r.error == FileNotFound(u.text)
    ensures r.Success? && r.value.Download? ==>
      r.value.request == Request(u.text, map["User-Agent" := UserAgent], timeout)
    ensures r.Success? && r.value.LocalFile? ==> r.value.path == u.text
  {
    if env.urlScheme(u.text) in NetworkSchemes then
      Success(Download(Request(u.text, map["User-Agent" := UserAgent], timeout)))
    else if env.pathExists(u.text) then
      Success(LocalFile(u.text))
    else
      Failure(FileNotFound(u.text))
  }

  /** `load_bytes`: one attempt at the chosen source. */
  function LoadBytes(env: Environment, u: Url, timeout: Option<real>): (r: Result<seq<bv8>, UrlError>)
    ensures env.urlScheme(u.text) !in NetworkSchemes && env.pathExists(u.text) ==>
      && (r.Success? <==> env.readFile(u.text).Some?)
      && (r.Success? ==> r.value == env.readFile(u.text).value)
      && (r.Failure? ==> r.error == ReadFailed(u.text))
    ensures env.urlScheme(u.text) !in NetworkSchemes && !env.pathExists(u.text) ==> r == Failure(FileNotFound(u.text))
    ensures env.urlScheme(u.text) in NetworkSchemes ==>
      && (r.Success? <==> env.download(Request(u.text, map["User-Agent" := UserAgent], timeout)).Some?)
      && (r.Success? ==> r.value == env.download(Request(u.text, map["User-Agent" := UserAgent], timeout)).value)
      && (r.Failure? ==> r.error == DownloadFailed(u.text))
  {
    var source :- LoadBytesSource(env, u, timeout);
    match source
    case Download(request) =>
      (match env.download(request)
       case None => Failure(DownloadFailed(u.text))
       case Some(body) => Success(body))
    case LocalFile(path) =>
      (match env.readFile(path)
       case None => Failure(ReadFailed(path))
       case Some(body) => Success(body))
  }

  /** A network URL is downloaded whatever the local disk holds: two
      environments that agree on its scheme and its download load the same
      bytes. */
  lemma NetworkLoadIgnoresDisk(env: Environment, other: Environment, u: Url, timeout: Option<real>)
    requires env.urlScheme(u.text) in NetworkSchemes
    requires other.urlScheme(u.text) == env.urlScheme(u.text)
    requires other.download(Request(u.text, map["User-Agent" := UserAgent], timeout))
          == env.download(Request(u.text, map["User-Agent" := UserAgent], timeout))
    ensures LoadBytes(other, u, timeout) == LoadBytes(env, u, timeout)
  {
  }

  /** Any other URL is read from disk and never downloaded: two environments
      that agree on its scheme, on whether it exists and on its contents
      load the same bytes. */
  lemma LocalLoadIgnoresNetwork(env: Environment, other: Environment, u: Url, timeout: Option<real>, otherTimeout: Option<real>)
    requires env.urlScheme(u.text) !in NetworkSchemes
    requires other.urlScheme(u.text) == env.urlScheme(u.text)
    requires other.pathExists(u.text) == env.pathExists(u.text)
    requires other.readFile(u.text) == env.readFile(u.text)
    ensures LoadBytes(other, u, otherTimeout) == LoadBytes(env, u, timeout)
  {
  }
}

=== FILE: dispatch.dfy ===
/** A reference definition of a priority-ordered, short-circuiting coercion
    gate: an ordered table of rules, of which the first one that fires decides
    the outcome. Both tensor gates are proved equal to a table of this shape. */
module Dispatch {

  import opened Wrappers
  import opened TensorValues

  /** What a rule tests: `isinstance(value, cls)`, or nothing at all. */
  datatype Guard = IsInstance(cls: Class) | AnyValue

  /** What a firing rule does with the value. */
  datatype Action =
    | Keep
    | WrapNative(backend: Backend)
      /** hand the value to the numpy validator; `swallow` turns its failure
          into the gate's own type error instead of passing it on */
    | NumpyValidate(swallow: bool)

  /** `enabled` is the backend-availability flag the rule depends on. */
  datatype Rule = Rule(enabled: bool, guard: Guard, action: Action)

  predicate Fires(rule: Rule, v: Value) {
    && rule.enabled
    && match rule.guard
       case IsInstance(cls) => cls in v.isa
       case AnyValue => true
  }

  /** The index of the first rule that fires on `v`, if any. */
  function FirstFiring(rules: seq<Rule>, v: Value): (r: Option<nat>)
    ensures r.Some? ==> r.value < |rules| && Fires(rules[r.value], v)
    ensures r.Some? ==> forall j :: 0 <= j < r.value ==> !Fires(rules[j], v)
    ensures r.None? ==> forall j :: 0 <= j < |rules| ==> !Fires(rules[j], v)
  {
    if |rules| == 0 then None
    else if Fires(rules[0], v) then Some(0)
    else match FirstFiring(rules[1..], v)
      case None => None
      case Some(i) => Some(i + 1)
  }

  function Apply(family: Family, action: Action, v: Value, numpy: NumpyValidator): Result<Coerced, TensorError> {
    match action
    case Keep => Success(Unchanged(v))
    case WrapNative(backend) => Success(FromNative(family, backend, v))
    case NumpyValidate(swallow) =>
      match numpy(v)
      case Success(w) => Success(Validated(w))
      case Failure(e) => if swallow then Failure(TypeError(v)) else Failure(NumpyError(e))
  }

  /** Run the table: the first firing rule acts, and when none fires the
      value is refused with a type error. */
  function Run(family: Family, rules: seq<Rule>, v: Value, numpy: NumpyValidator): Result<Coerced, TensorError> {
    match FirstFiring(rules, v)
    case None => Failure(TypeError(v))
    case Some(i) => Apply(family, rules[i].action, v, numpy)
  }

  /** Short-circuiting: once rule `i` fires and no earlier rule does, rule
      `i` alone decides the result, whatever the later rules would do. */
  lemma RunShortCircuits(family: Family, rules: seq<Rule>, v: Value, numpy: NumpyValidator, i: nat)
    requires i < |rules| && Fires(rules[i], v)
    requires forall j :: 0 <= j < i ==> !Fires(rules[j], v)
    ensures Run(family, rules, v, numpy) == Apply(family, rules[i].action, v, numpy)
  {
  }

  /** A rule whose backend is unavailable never decides anything: dropping
      it from the table leaves the outcome unchanged. */
  lemma {:induction false} DisabledRuleIsInert(family: Family, before: seq<Rule>, rule: Rule, after: seq<Rule>, v: Value, numpy: NumpyValidator)
    requires !rule.enabled
    ensures Run(family, before + [rule] + after, v, numpy) == Run(family, before + after, v, numpy)
  {
    var full := before + [rule] + after;
    var short := before + after;
    match FirstFiring(short, v)
    case None =>
      forall j | 0 <= j < |full|
        ensures !Fires(full[j], v)
      {
        if j < |before| {
          assert full[j] == short[j];
        } else if j > |before| {
          assert full[j] == short[j - 1];
        }
      }
    case Some(k) =>
      var m := if k < |before| then k else k + 1;
      assert full[m] == short[k];
      forall j | 0 <= j < m
        ensures !Fires(full[j], v)
      {
        if j < |before| {
          assert full[j] == short[j];
        } else if j > |before| {
          assert full[j] == short[j - 1];
        }
      }
      RunShortCircuits(family, full, v, numpy, m);
  }
}

=== FILE: strings.dfy ===
/** The few Python `str` operations the URL validator relies on:
    `startswith`, `endswith`, `split(sep)[0]` and `lower`. */
module Strings {

  /** Python's `s.startswith(prefix)`. */
  predicate StartsWith(s: string, prefix: string) {
    |prefix| <= |s| && s[..|prefix|] == prefix
  }

  /** Python's `s.endswith(suffix)`; every string ends with "". */
  predicate EndsWith(s: string, suffix: string) {
    |suffix| <= |s| && s[|s| - |suffix|..] == suffix
  }

  /** Python's `s.split(sep)[0]`: the text before the first `sep`,
      or all of `s` when `sep` does not occur. */
  function BeforeFirst(s: string, sep: char): (r: string)
    ensures StartsWith(s, r)
    ensures sep !in r
    ensures |r| < |s| ==> s[|r|] == sep
  {
    if |s| == 0 || s[0] == sep then ""
    else [s[0]] + BeforeFirst(s[1..], sep)
  }

  /** The three properties of `BeforeFirst` pin it down: any prefix of `s`
      free of `sep` that stops at a `sep` or at the end is that result. */
  lemma BeforeFirstUnique(s: string, sep: char, p: string)
    requires StartsWith(s, p)
    requires sep !in p
    requires |p| < |s| ==> s[|p|] == sep
    ensures p == BeforeFirst(s, sep)
  {
  }

  /** Without a separator, splitting leaves the string whole. */
  lemma BeforeFirstWithoutSeparator(s: string, sep: char)
    requires sep !in s
    ensures BeforeFirst(s, sep) == s
  {
  }

  predicate IsUpper(c: char) {
    'A' <= c <= 'Z'
  }

  /** ASCII lower-casing of one character. */
  function LowerChar(c: char): (r: char)
    ensures !IsUpper(r)
    ensures !IsUpper(c) ==> r == c
    ensures IsUpper(c) ==> r as int - c as int == 'a' as int - 'A' as int
  {
    if IsUpper(c) then (c as int + ('a' as int - 'A' as int)) as char else c
  }

  /** Python's `s.lower()` restricted to ASCII letters. */
  function Lower(s: string): (r: string)
    ensures |r| == |s|
    ensures forall i :: 0 <= i < |s| ==> r[i] == LowerChar(s[i])
    ensures forall i :: 0 <= i < |r| ==> !IsUpper(r[i])
  {
    seq(|s|, i requires 0 <= i < |s| => LowerChar(s[i]))
  }

  /** Strings that differ only in the case of ASCII letters lower-case alike. */
  lemma LowerIgnoresCase(s: string, t: string)
    requires |s| == |t|
    requires forall i :: 0 <= i < |s| ==> LowerChar(s[i]) == LowerChar(t[i])
    ensures Lower(s) == Lower(t)
  {
  }
}

=== FILE: tensor_values.dfy ===
/** Values seen by the tensor coercion gates and what the gates hand back.

    The array libraries themselves are opaque: a value is known only by the
    classes it is an instance of (the `isinstance` facts the gates test) and an
    identity, so that "the same value comes back" can be stated. */
module TensorValues {

  import opened Wrappers

  /** The runtime classes the gates test with `isinstance`. Python's
      subclassing shows up as a value being an instance of several of them:
      a `TorchTensor` is also a `torch.Tensor`, a `VideoNdArray` is also an
      `np.ndarray`. */
  datatype Class =
    | TorchTensor        // docarray's torch wrapper (any of its subclasses)
    | TorchNative        // torch.Tensor
    | TensorFlowTensor   // docarray's TensorFlow wrapper
    | TfNative           // tf.Tensor
    | VideoNdArray       // docarray's numpy video wrapper
    | NumpyArray         // np.ndarray

  datatype Value = Value(isa: set<Class>, id: nat)

  datatype Backend = Torch | TensorFlow

  /** Which semantic tensor kind a gate coerces into. */
  datatype Family = AnyTensorFamily | VideoTensorFamily

  /** A successful coercion. */
  datatype Coerced =
      /** the input itself, returned as is */
    | Unchanged(value: Value)
      /** `<family's backend wrapper>._docarray_from_native(native)` */
    | FromNative(family: Family, backend: Backend, native: Value)
      /** whatever the numpy wrapper's own validator returned */
    | Validated(result: Value)

  datatype TensorError =
      /** "Expected one of [torch.Tensor, tensorflow.Tensor, numpy.ndarray]
          compatible type, got <type of got>" */
    | TypeError(got: Value)
      /** an error raised by the numpy wrapper's validator, passed on */
    | NumpyError(message: string)
      /** a backend hook called on the abstract kind */
    | AttributeError(message: string)

  /** The numpy wrapper's validator (`NdArray.validate` or
      `VideoNdArray.validate`): shape and dtype logic not part of this model. */
  type NumpyValidator = Value -> Result<Value, string>

  /** The five backend hooks the abstract kinds refuse. */
  datatype Hook =
    | DocarrayFromNative
    | GetCompBackend
    | ToProtobuf
    | DocarrayToJsonCompatible
    | FromProtobuf

  function ClassName(family: Family): string {
    match family
    case AnyTensorFamily => "AnyTensor"
    case VideoTensorFamily => "VideoTensor"
  }

  /** The message every refused hook raises with. */
  function RefusalMessage(family: Family): string {
    "This method should not be called on " + ClassName(family) + "."
  }
}

=== FILE: video_tensor.dfy ===
/** `VideoTensor`: the backend-agnostic video tensor kind. Unlike `AnyTensor`
    it only hands real numpy arrays to the numpy validator, passes that
    validator's errors on, and refuses everything else with a type error. */
module VideoTensor {

  import opened Wrappers
  import opened TensorValues
  import Dispatch
  import AnyTensor

  /** `VideoTensor.validate`. `videoNdArray` is `VideoNdArray.validate`. */
  function Validate(v: Value, torchAvailable: bool, tfAvailable: bool, videoNdArray: NumpyValidator): (r: Result<Coerced, TensorError>)
    ensures r.Success? && r.value.FromNative? ==> r.value.family == VideoTensorFamily && r.value.native == v
    ensures r.Success? && r.value.Unchanged? ==> r.value.value == v
    ensures r.Success? && r.value.Validated? ==> NumpyArray in v.isa && videoNdArray(v) == Success(r.value.result)
    ensures r.Failure? && r.error.NumpyError? ==> NumpyArray in v.isa && videoNdArray(v) == Failure(r.error.message)
    ensures r.Failure? ==> r.error.TypeError? || r.error.NumpyError?
  {
    if torchAvailable && TorchTensor in v.isa then Success(Unchanged(v))
    else if torchAvailable && TorchNative in v.isa then Success(FromNative(VideoTensorFamily, Torch, v))
    else if tfAvailable && TensorFlowTensor in v.isa then Success(Unchanged(v))
    else if tfAvailable && TfNative in v.isa then Success(FromNative(VideoTensorFamily, TensorFlow, v))
    else if VideoNdArray in v.isa then Success(Unchanged(v))
    else if NumpyArray in v.isa then
      match videoNdArray(v)
      case Success(w) => Success(Validated(w))
      case Failure(e) => Failure(NumpyError(e))
    else Failure(TypeError(v))
  }

  /** The video gate's priority table: torch, TensorFlow, an existing
      `VideoNdArray`, and finally a plain numpy array whose validation errors
      are passed on. Nothing else fires. */
  function Priority(torchAvailable: bool, tfAvailable: bool): seq<Dispatch.Rule> {
    [ Dispatch.Rule(torchAvailable, Dispatch.IsInstance(TorchTensor), Dispatch.Keep),
      Dispatch.Rule(torchAvailable, Dispatch.IsInstance(TorchNative), Dispatch.WrapNative(Torch)),
      Dispatch.Rule(tfAvailable, Dispatch.IsInstance(TensorFlowTensor), Dispatch.Keep),
      Dispatch.Rule(tfAvailable, Dispatch.IsInstance(TfNative), Dispatch.WrapNative(TensorFlow)),
      Dispatch.Rule(true, Dispatch.IsInstance(VideoNdArray), Dispatch.Keep),
      Dispatch.Rule(true, Dispatch.IsInstance(NumpyArray), Dispatch.NumpyValidate(false)) ]
  }

  /** The gate is exactly the first-match run of its priority table. */
  lemma ValidateFollowsPriority(v: Value, torchAvailable: bool, tfAvailable: bool, videoNdArray: NumpyValidator)
    ensures Validate(v, torchAvailable, tfAvailable, videoNdArray)
         == Dispatch.Run(VideoTensorFamily, Priority(torchAvailable, tfAvailable), v, videoNdArray)
  {
    var rules := Priority(torchAvailable, tfAvailable);
    if NumpyArray in v.isa || VideoNdArray in v.isa
      || (torchAvailable && (TorchTensor in v.isa || TorchNative in v.isa))
      || (tfAvailable && (TensorFlowTensor in v.isa || TfNative in v.isa))
    {
      var i: nat :=
        if Dispatch.Fires(rules[0], v) then 0
        else if Dispatch.Fires(rules[1], v) then 1
        else if Dispatch.Fires(rules[2], v) then 2
        else if Dispatch.Fires(rules[3], v) then 3
        else if Dispatch.Fires(rules[4], v) then 4
        else 5;
      Dispatch.RunShortCircuits(VideoTensorFamily, rules, v, videoNdArray, i);
    } else {
      assert Dispatch.FirstFiring(rules, v).None?;
    }
  }

  /** With torch installed, any docarray torch wrapper comes back as is
      (`VideoTensor.validate` only casts it) and a native torch tensor is wrapped as a video
      torch tensor. */
  lemma TorchBranches(v: Value, tfAvailable: bool, videoNdArray: NumpyValidator)
    ensures TorchTensor in v.isa ==> Validate(v, true, tfAvailable, videoNdArray) == Success(Unchanged(v))
    ensures TorchTensor !in v.isa && TorchNative in v.isa
        ==> Validate(v, true, tfAvailable, videoNdArray) == Success(FromNative(VideoTensorFamily, Torch, v))
  {
  }

  /** The TensorFlow branches mirror the torch ones, but only decide when
      neither torch branch fired. */
  lemma TensorFlowBranches(v: Value, torchAvailable: bool, videoNdArray: NumpyValidator)
    requires !(torchAvailable && (TorchTensor in v.isa || TorchNative in v.isa))
    ensures TensorFlowTensor in v.isa ==> Validate(v, torchAvailable, true, videoNdArray) == Success(Unchanged(v))
    ensures TensorFlowTensor !in v.isa && TfNative in v.isa
        ==> Validate(v, torchAvailable, true, videoNdArray) == Success(FromNative(VideoTensorFamily, TensorFlow, v))
  {
  }

  /** Without torch installed, the torch branches never decide the result:
      the gate behaves as if those two rules were not in its table. */
  lemma TorchUnavailableNeverFires(v: Value, tfAvailable: bool, videoNdArray: NumpyValidator)
    ensures Validate(v, false, tfAvailable, videoNdArray)
         == Dispatch.Run(VideoTensorFamily, Priority(false, tfAvailable)[2..], v, videoNdArray)
  {
    ValidateFollowsPriority(v, false, tfAvailable, videoNdArray);
    var rules := Priority(false, tfAvailable);
    Dispatch.DisabledRuleIsInert(VideoTensorFamily, [], rules[0], rules[1..], v, videoNdArray);
    assert [] + [rules[0]] + rules[1..] == rules;
    Dispatch.DisabledRuleIsInert(VideoTensorFamily, [], rules[1], rules[2..], v, videoNdArray);
    assert [] + [rules[1]] + rules[2..] == rules[1..];
  }

  /** Without TensorFlow installed, the TensorFlow branches never decide the
      result: the gate behaves as if those two rules were not in its table. */
  lemma TensorFlowUnavailableNeverFires(v: Value, torchAvailable: bool, videoNdArray: NumpyValidator)
    ensures Validate(v, torchAvailable, false, videoNdArray)
         == Dispatch.Run(VideoTensorFamily, Priority(torchAvailable, false)[..2] + Priority(torchAvailable, false)[4..], v, videoNdArray)
  {
    ValidateFollowsPriority(v, torchAvailable, false, videoNdArray);
    var rules := Priority(torchAvailable, false);
    Dispatch.DisabledRuleIsInert(VideoTensorFamily, rules[..2], rules[2], rules[3..], v, videoNdArray);
    assert rules[..2] + [rules[2]] + rules[3..] == rules;
    Dispatch.DisabledRuleIsInert(VideoTensorFamily, rules[..2], rules[3], rules[4..], v, videoNdArray);
    assert rules[..2] + [rules[3]] + rules[4..] == rules[..2] + rules[3..];
  }

  /** Once no backend branch fired: an existing `VideoNdArray` comes back as
      is even though it is also an `np.ndarray`; any other `np.ndarray`
      yields the numpy validator's result or its error, unchanged; everything
      else is a type error. */
  lemma NumpyBranches(v: Value, torchAvailable: bool, tfAvailable: bool, videoNdArray: NumpyValidator)
    requires !(torchAvailable && (TorchTensor in v.isa || TorchNative in v.isa))
    requires !(tfAvailable && (TensorFlowTensor in v.isa || TfNative in v.isa))
    ensures VideoNdArray in v.isa ==> Validate(v, torchAvailable, tfAvailable, videoNdArray) == Success(Unchanged(v))
    ensures VideoNdArray !in v.isa && NumpyArray in v.isa ==>
      Validate(v, torchAvailable, tfAvailable, videoNdArray)
      == match videoNdArray(v)
         case Success(w) => Success(Validated(w))
         case Failure(e) => Failure(NumpyError(e))
    ensures VideoNdArray !in v.isa && NumpyArray !in v.isa ==>
      Validate(v, torchAvailable, tfAvailable, videoNdArray) == Failure(TypeError(v))
  {
  }

  /** The video gate never consults its numpy validator for a value that is
      not an `np.ndarray`: two validators that differ only elsewhere give the
      same outcome. */
  lemma ValidatorOnlySeesArrays(v: Value, torchAvailable: bool, tfAvailable: bool, f: NumpyValidator, g: NumpyValidator)
    requires NumpyArray !in v.isa || f(v) == g(v)
    ensures Validate(v, torchAvailable, tfAvailable, f) == Validate(v, torchAvailable, tfAvailable, g)
  {
  }

  /** Where the two gates part ways: a plain `np.ndarray` that its numpy
      validator refuses makes `AnyTensor` raise its own type error, while
      `VideoTensor` passes the validator's error on unchanged; a value that
      is no array at all is refused by the video gate without consulting the
      validator. */
  lemma GatesDifferOnNumpyFailure(v: Value, torchAvailable: bool, tfAvailable: bool, numpy: NumpyValidator)
    requires !(torchAvailable && (TorchTensor in v.isa || TorchNative in v.isa))
    requires !(tfAvailable && (TensorFlowTensor in v.isa || TfNative in v.isa))
    requires VideoNdArray !in v.isa
    requires numpy(v).Failure?
    ensures AnyTensor.Validate(v, torchAvailable, tfAvailable, numpy) == Failure(TypeError(v))
    ensures NumpyArray in v.isa ==> Validate(v, torchAvailable, tfAvailable, numpy) == Failure(NumpyError(numpy(v).error))
    ensures NumpyArray !in v.isa ==> Validate(v, torchAvailable, tfAvailable, numpy) == Failure(TypeError(v))
  {
  }

  /** A backend hook called on `VideoTensor` itself. */
  function CallHook(hook: Hook): (r: Result<Value, TensorError>)
    ensures r.Failure? && r.error.AttributeError?
    ensures r.error.message == RefusalMessage(VideoTensorFamily)
  {
    Failure(AttributeError(RefusalMessage(VideoTensorFamily)))
  }
}

=== FILE: wrappers.dfy ===
/** Failure-compatible Option and Result types used across the model.
    Both support Dafny's `:-` elephant operator. */
module Wrappers {

  datatype Option<+T> = None | Some(value: T) {

    predicate IsFailure() {
      None?
    }

    function PropagateFailure<U>(): Option<U>
      requires None?
    {
      None
    }

    function Extract(): T
      requires Some?
    {
      value
    }
  }

  /** Either a value or the error the Python code would raise. */
  datatype Result<+R, +E> = Success(value: R) | Failure(error: E) {

    predicate IsFailure() {
      Failure?
    }

    function PropagateFailure<U>(): Result<U, E>
      requires Failure?
    {
      Failure(error)
    }

    function Extract(): R
      requires Success?
    {
      value
    }
  }
}
